=== FILE: README.md ===
# Binance futures ticker path, modelled in Dafny

This project models the ticker path of the barter-data market-data client for
Binance USD-M futures. It has three steps:

1. **Decode.** A JSON payload becomes the `BinanceTiker` wire record.
2. **Identify.** The record carries its routing key, a `SubscriptionId`. This
   key is built from the payload's `"s"` market string on the fixed tickers
   channel.
3. **Normalise.** The conversion
   `From<(ExchangeId, InstrumentId, BinanceTiker)> for MarketIter<_, Tiker>`
   turns the record into exactly one successful canonical `MarketEvent`
   carrying a `Tiker` payload.

It also models the canonical side: the zero-data `Tikers` subscription kind and
the `Tiker` payload record.

Files:

- `wrappers.dfy`: `Option` and `Result`.
- `primitives.dfy`: the borrowed value types. `f64` is kept as its 64-bit
  pattern (`F64`), `DateTime<Utc>` as epoch milliseconds, and `u64` as
  `uint64`. Also the subscription id, the Binance channel, `ExchangeSub`, the
  exchange id and name, and JSON values and object members.
- `event.dfy`: `MarketEvent`, `MarketIter` and `DataError`.
- `subscription_tiker.dfy`: `Tikers`, `Tiker`, and `TikersEvent`, the kind's
  event payload type, which is `Tiker`. `Tiker` has exactly fifteen
  fields. Previous close price, bid price and quantity, and ask price and
  quantity are not fields. `first_id`, `last_id` and `count` have type
  `uint64`, so each lies in `0 .. 2^64-1`.
- `binance_futures_tiker.dfy`: the wire record and the decoder. The decoder is
  built from three parts:
  - `FieldOfKey`, the derived field identifier;
  - `DecodeValue`, the per-field deserializers;
  - `Visit`, the derived map visitor, followed by `Assemble`.
  The file also holds the routing key `Id` and the conversion
  `FromBinanceTiker`, with its inverse `ToBinanceTiker`.
- `binance_futures_tiker_lemmas.dfy`: the properties of these operations.

A payload is an ordered sequence of `"key": value` members, not a map. This
lets the model follow the derived deserializer exactly:

- Members are read left to right.
- Keys are compared case-sensitively.
- Each field accepts two keys: its Rust field name and its one-letter alias.
  For example, `"p"` and `"price_change"` both fill `price_change`.
- Keys outside the 32 accepted ones are ignored.
- A field given twice is an error. This covers the same key twice and the name
  together with the alias.
- A value of the wrong shape is an error.
- After the walk, the first field without a value, in declaration order, is
  reported as missing.

Some callees are defined outside the modelled files, so they are parameters:

- `Decoders.parseF64` stands for `str::parse::<f64>`, which
  `barter_integration::de::de_str` calls.
- `Decoders.subscriptionId` stands for `ExchangeSub::from((channel, market)).id()`.
- `exchangeOf` stands for `Exchange::from(ExchangeId)`.
- `receivedTime` stands for the `Utc::now()` clock reading.

Three consequences of the code are worth stating:

- **Unknown keys are ignored.** The struct has no `deny_unknown_fields`, so
  members with other keys are skipped. `Decode` does the same
  (`DecodeIgnoresUnknownKeys`).
- **Subscription ids are abstract.** No subscription-id text, upper-casing or
  injectivity is asserted.
- **Bid, ask and previous close are absent.** These fields are commented out
  in barter-data/src/exchange/binance/futures/tiker.rs:63-76 and
  barter-data/src/subscription/tiker.rs:25-31, so they are not part of the model.

## Model

| member | source | states |
|---|---|---|
| BinanceFuturesTiker.DecodeValue | barter-data/src/exchange/binance/futures/tiker.rs:55-102 | A field value decodes exactly when it has the right shape, and the ensures give the decoded value. For `s`, the value is any string; the stored value is the subscription id of `ExchangeSub(TICKERS, market)`. For the ten price and quantity fields, the value is a string that parses as f64; the stored value is the parsed f64. For `O` and `C`, the value is an integer in the u64 range; the stored value is a timestamp of exactly that many milliseconds. For `F`, `L` and `n`, the value is an integer in the u64 range; the stored value is that integer, not truncated. Any other value is `InvalidValue` naming that field. |
| BinanceFuturesTiker.DeTikerSubscriptionId | barter-data/src/exchange/binance/futures/tiker.rs:148-154 | The subscription id is the id constructor applied to the fixed TICKERS channel and the market string, and to nothing else. |
| BinanceFuturesTiker.Visit | barter-data/src/exchange/binance/futures/tiker.rs:53-103 | The member walk only adds decoded fields to what it already holds. Every stored value has its field's kind. |
| BinanceFuturesTiker.Assemble | barter-data/src/exchange/binance/futures/tiker.rs:54-103 | A record is built exactly when all sixteen fields have a value, and each record field equals its decoded value. Otherwise the error is `MissingField` naming a field that has no value; `AssembleReportsFirstMissing` states which one. |
| BinanceFuturesTiker.FirstMissingIsFirst | barter-data/src/exchange/binance/futures/tiker.rs:55-102 | The field found missing sits at a position in the declaration order before which every field has a value, as serde checks the fields one after another. |
| BinanceFuturesTiker.AssembleReportsFirstMissing | barter-data/src/exchange/binance/futures/tiker.rs:55-102 | When assembly fails, the `MissingField` error names the first field, in declaration order, that has no value. Every field declared before it has one. |
| BinanceFuturesTiker.Decode | barter-data/src/exchange/binance/futures/tiker.rs:53-103 | Every decode error names one of the sixteen fields by its Rust name. The error is a missing field, a duplicate field or an invalid value. What a successful decode holds is stated by `DecodeSucceedsIffConforms` and `DecodedFieldsMatchPayload`. |
| BinanceFuturesTiker.Id | barter-data/src/exchange/binance/futures/tiker.rs:105-109 | `id()` always returns `Some`, and its content is the stored `subscription_id`. |
| BinanceFuturesTiker.FromBinanceTiker | barter-data/src/exchange/binance/futures/tiker.rs:111-144 | The conversion is total. It yields exactly one element, and that element is `Ok`. `exchange_time` is the record's `close_time`, not its `open_time`. The instrument is passed through unchanged. The exchange is `Exchange::from` of the given id. The three renames are named: `open` is `open_price`, `high` is `high_price` and `low` is `low_price`. Rebuilding the record from the payload gives back the original record, so every other field is copied verbatim. |
| BinanceFuturesTiker.FindField | barter-data/src/exchange/binance/futures/tiker.rs:55-102 | A key is mapped to a field only if it is that field's Rust name or its alias. |
| BinanceFuturesTikerLemmas.NameDeterminesField | barter-data/src/exchange/binance/futures/tiker.rs:55-102 | No two fields share a Rust name. |
| BinanceFuturesTikerLemmas.AliasDeterminesField | barter-data/src/exchange/binance/futures/tiker.rs:55-102 | No two fields share an alias. `p`/`P`, `q`/`Q`, `o`/`O`, `c`/`C` and `l`/`L` are different aliases, because keys are compared case-sensitively. |
| BinanceFuturesTikerLemmas.AliasIsNeverAName | barter-data/src/exchange/binance/futures/tiker.rs:55-102 | No alias equals any field's Rust name. |
| BinanceFuturesTikerLemmas.FindFieldComplete | barter-data/src/exchange/binance/futures/tiker.rs:55-102 | When some listed field accepts a key, the lookup finds a field. |
| BinanceFuturesTikerLemmas.NameAndAliasFillTheirField | barter-data/src/exchange/binance/futures/tiker.rs:55-102 | Each field is filled by its Rust name and by its one-letter alias: `s,p,P,w,c,Q,o,h,l,v,q,O,C,F,L,n`. |
| BinanceFuturesTikerLemmas.FieldOfKeyMatchesTable | barter-data/src/exchange/binance/futures/tiker.rs:55-102 | Both directions: a key fills field `f` if and only if it is `f`'s name or alias. |
| BinanceFuturesTikerLemmas.KeyFillsAtMostOneField | barter-data/src/exchange/binance/futures/tiker.rs:55-102 | The accepted keys are pairwise distinct under case-sensitive comparison. `p`/`P`, `q`/`Q`, `o`/`O`, `c`/`C` and `l`/`L` fill different fields, so each key fills one field. |
| BinanceFuturesTikerLemmas.VisitSucceedsIff | barter-data/src/exchange/binance/futures/tiker.rs:53-103 | The member walk succeeds if and only if three things hold: no field is filled twice, no field already held is filled again, and every field value is valid. |
| BinanceFuturesTikerLemmas.VisitContents | barter-data/src/exchange/binance/futures/tiker.rs:53-103 | A successful walk holds exactly the earlier fields plus the fields seen. It keeps the earlier values, and each field seen holds the value decoded from its member. |
| BinanceFuturesTikerLemmas.DecodeSucceedsIffConforms | barter-data/src/exchange/binance/futures/tiker.rs:53-103 | Decoding succeeds if and only if each of the sixteen fields is filled exactly once and every field value is valid. No partial record is ever produced. |
| BinanceFuturesTikerLemmas.DecodedFieldsMatchPayload | barter-data/src/exchange/binance/futures/tiker.rs:55-102 | Each field of a decoded record equals the value decoded from the member that filled it, whether that member used the name or the alias. |
| BinanceFuturesTikerLemmas.MissingFieldRejected | barter-data/src/exchange/binance/futures/tiker.rs:54-103 | A payload with neither key of some field fails to decode. |
| BinanceFuturesTikerLemmas.MissingFieldReported | barter-data/src/exchange/binance/futures/tiker.rs:54-103 | Suppose the only defect of a payload is an absent field. Then the error is `MissingField` naming the first field, in declaration order, that has no member: every field declared before it has one. |
| BinanceFuturesTikerLemmas.DuplicateFieldRejected | barter-data/src/exchange/binance/futures/tiker.rs:55-102 | Two members filling the same field fail to decode. This includes a field's name and its alias appearing together. |
| BinanceFuturesTikerLemmas.InvalidValueRejected | barter-data/src/exchange/binance/futures/tiker.rs:57-102 | One member with an invalid value fails the whole payload. Examples are a price string that does not parse and an id outside the u64 range. |
| BinanceFuturesTikerLemmas.DecodeIgnoresUnknownKeys | barter-data/src/exchange/binance/futures/tiker.rs:53-103 | Dropping every member whose key fills no field leaves the decoding result unchanged. |
| BinanceFuturesTikerLemmas.RoutingKeyIsTickersIdOfMarket | barter-data/src/exchange/binance/futures/tiker.rs:105-109 | `id()` of a decoded record is always `Some`. Its content is the stored subscription id, which is the subscription id of `ExchangeSub(TICKERS, market)` for the payload's `s` string. |
| BinanceFuturesTikerLemmas.SameMarketSameRoutingKey | barter-data/src/exchange/binance/futures/tiker.rs:146-154 | The subscription id depends only on the market string. Two payloads with equal market values decode to the same routing key, under `s` or `subscription_id`, however their other fields differ. |
| BinanceFuturesTikerLemmas.DecimalDecoding | barter-data/src/exchange/binance/futures/tiker.rs:57-86 | Each decoded price or quantity field is the f64 parsed from the string of its payload member. For example, `"p": "10000.19"` sets `price_change` to the parse of `"10000.19"`. |
| BinanceFuturesTikerLemmas.UnsignedDecoding | barter-data/src/exchange/binance/futures/tiker.rs:97-102 | Each decoded `first_id`, `last_id` and `count` is the integer of its payload member. That integer lies in the u64 range. |
| BinanceFuturesTikerLemmas.EpochMillisDecoding | barter-data/src/exchange/binance/futures/tiker.rs:87-96 | A decoded timestamp field is exactly the epoch-millisecond integer of its payload member. |
| BinanceFuturesTikerLemmas.CloseTimeFromPayload | barter-data/src/exchange/binance/futures/tiker.rs:92-96 | The decoded `close_time` is the epoch-millisecond integer of the payload's `C` (or `close_time`) member. |
| BinanceFuturesTikerLemmas.DecodeThenConvert | barter-data/src/exchange/binance/futures/tiker.rs:114-142 | Decoding followed by conversion yields exactly one `Ok` event. Its `exchange_time` is the payload's `C` epoch milliseconds, its instrument is the given one, and its exchange comes from the given exchange id. |
| BinanceFuturesTikerLemmas.ConversionIsInjective | barter-data/src/exchange/binance/futures/tiker.rs:120-140 | The payload mapping loses no wire field. Two records with the same routing key and the same converted payload are equal. |
| SubscriptionTiker.TikersIsUnitWithConstantName | barter-data/src/subscription/tiker.rs:7-15 | `Tikers` has a single value, and its `as_str` is always `"tikers"`. |

## Left out

- **Clock.** The clock read `Utc::now()` is a parameter of the conversion. No
  property is stated about it.
- **Number and time parsing.** `de_str` and `de_u64_epoch_ms_as_datetime_utc`
  are defined outside the modelled files. String-to-f64 parsing is the
  `parseF64` parameter, so no rounding or exactness claim is made. An
  epoch-millisecond u64 is kept as its integer, and every u64 decodes
  successfully. In the program, a very large epoch-ms value (beyond the range
  `DateTime<Utc>` can hold) plausibly panics in the timestamp conversion
  instead of returning a decode error. The model does not show that failure.
- **f64 comparison.** f64 values are compared by bit pattern. Rust's `f64`
  equality treats NaN and signed zero differently; this is not modelled.
- **Subscription id text.** `ExchangeSub::id` (in `crate::exchange`) and the
  `BinanceChannel::TICKERS` literal (in binance/channel.rs) are defined outside
  the modelled files. The id constructor is a parameter, and no text format,
  upper-casing or injectivity is asserted.
- **Error precedence.** Of several defects in one payload, the reported one is
  the first met by the left-to-right walk; missing fields come last, in
  declaration order. The text of serde's error messages is not modelled. Only
  serde's missing-field and duplicate-field errors carry the field name; a
  wrong-shaped or unparsable value gives serde_json's invalid-type error or the
  custom parse error of `de_str`, neither of which names the field, so the
  field in `InvalidValue` is added by the model.
- **Borrowed strings.** Both `s` and the `de_str` fields deserialize a borrowed
  `&str`, which fails on a JSON string containing escape sequences. The model
  takes string values as already unescaped and accepts them.
- **Positional arrays.** Derived deserializers also accept a record as a JSON
  array in field order. Only JSON objects are modelled.
- **Serialization.** The record derives `Serialize` and `PartialOrd`; neither
  is modelled.
- **Disabled fields.** The commented-out bid, ask and previous-close fields
  are not modelled.
- **Disabled tests.** The commented-out test module, which describes trade
  records, is not modelled.
- **Stream example.** The stream-building example (barter-data/examples/tiker_stream_exchange.rs)
  is asynchronous WebSocket I/O, reconnection and stream merging, so it is
  not modelled.
- **Crate root.** src/lib.rs only declares modules and holds documentation.

=== FILE: binance_futures_tiker.dfy ===
/** The Binance USD-M futures ticker wire record: how a payload is decoded into
    it, the subscription id it routes by, and its conversion into one canonical
    market event. */
module BinanceFuturesTiker {
  import opened Wrappers
  import opened Primitives
  import opened Event
  import opened SubscriptionTiker

  /** The decoded wire record. */
  datatype BinanceTiker = BinanceTiker(
    subscription_id: SubscriptionId,
    price_change: F64,
    price_change_percent: F64,
    weighted_avg_price: F64,
    last_price: F64,
    last_qty: F64,
    open_price: F64,
    high_price: F64,
    low_price: F64,
    volume: F64,
    quote_volume: F64,
    open_time: DateTimeUtc,
    close_time: DateTimeUtc,
    first_id: uint64,
    last_id: uint64,
    count: uint64
  )

  /** How a field's JSON value is deserialized. */
  datatype FieldKind =
    | MarketSymbol   // a string, turned into a subscription id
    | Decimal        // a string parsed as f64
    | EpochMillis    // a u64 of milliseconds, turned into a UTC timestamp
    | Unsigned       // a u64

  /** The record's fields, in declaration order. */
  datatype Field =
    | SubscriptionIdField | PriceChange | PriceChangePercent | WeightedAvgPrice
    | LastPrice | LastQty | OpenPrice | HighPrice | LowPrice | Volume | QuoteVolume
    | OpenTime | CloseTime | FirstId | LastId | Count
  {
    /** The Rust field name, which the deserializer accepts as a key. */
    function Name(): string {
      match this
      case SubscriptionIdField => "subscription_id"
      case PriceChange => "price_change"
      case PriceChangePercent => "price_change_percent"
      case WeightedAvgPrice => "weighted_avg_price"
      case LastPrice => "last_price"
      case LastQty => "last_qty"
      case OpenPrice => "open_price"
      case HighPrice => "high_price"
      case LowPrice => "low_price"
      case Volume => "volume"
      case QuoteVolume => "quote_volume"
      case OpenTime => "open_time"
      case CloseTime => "close_time"
      case FirstId => "first_id"
      case LastId => "last_id"
      case Count => "count"
    }

    /** The one-letter key Binance sends, accepted as an alias of the name. */
    function Alias(): string {
      match this
      case SubscriptionIdField => "s"
      case PriceChange => "p"
      case PriceChangePercent => "P"
      case WeightedAvgPrice => "w"
      case LastPrice => "c"
      case LastQty => "Q"
      case OpenPrice => "o"
      case HighPrice => "h"
      case LowPrice => "l"
      case Volume => "v"
      case QuoteVolume => "q"
      case OpenTime => "O"
      case CloseTime => "C"
      case FirstId => "F"
      case LastId => "L"
      case Count => "n"
    }

    function Kind(): FieldKind {
      match this
      case SubscriptionIdField => MarketSymbol
      case OpenTime | CloseTime => EpochMillis
      case FirstId | LastId | Count => Unsigned
      case _ => Decimal
    }
  }

  /** The fields in declaration order, which is the order missing fields are
      reported in. */
  const AllFields: seq<Field> := [
    SubscriptionIdField, PriceChange, PriceChangePercent, WeightedAvgPrice,
    LastPrice, LastQty, OpenPrice, HighPrice, LowPrice, Volume, QuoteVolume,
    OpenTime, CloseTime, FirstId, LastId, Count
  ]

  /** The field a payload key fills, if any: the derived field identifier.
      Keys are compared case-sensitively; an unknown key is ignored. */
  function FieldOfKey(key: string): Option<Field> {
    FindField(key, AllFields)
  }

  /** The first of `fields` that accepts `key` under its name or its alias. */
  function FindField(key: string, fields: seq<Field>): (r: Option<Field>)
    ensures r.Some? ==> key == r.value.Name() || key == r.value.Alias()
  {
    if |fields| == 0 then None
    else if key == fields[0].Name() || key == fields[0].Alias() then Some(fields[0])
    else FindField(key, fields[1..])
  }

  /** Why a payload does not decode. */
  datatype DecodeError =
    | MissingField(field: string)
    | DuplicateField(field: string)
    | InvalidValue(field: string)

  /** The deserialization helpers the decoder calls but that are defined
      elsewhere: parsing a string as f64, and building a subscription id from
      a channel and a market. */
  datatype Decoders = Decoders(
    parseF64: string -> Option<F64>,
    subscriptionId: ExchangeSub -> SubscriptionId
  )

  /** The subscription id of a market on the tickers channel. */
  function DeTikerSubscriptionId(d: Decoders, market: string): (id: SubscriptionId)
    ensures id == d.subscriptionId(ExchangeSub(Tickers, market))
  {
    d.subscriptionId(ExchangeSub(Tickers, market))
  }

  /** A decoded field value, before the record is assembled. */
  datatype Slot =
    | IdSlot(id: SubscriptionId)
    | DecimalSlot(x: F64)
    | TimeSlot(t: DateTimeUtc)
    | CountSlot(n: uint64)

  predicate Fits(f: Field, s: Slot) {
    match f.Kind()
    case MarketSymbol => s.IdSlot?
    case Decimal => s.DecimalSlot?
    case EpochMillis => s.TimeSlot?
    case Unsigned => s.CountSlot?
  }

  /** Deserializes one field's JSON value. */
  function DecodeValue(d: Decoders, f: Field, v: JsonValue): (r: Result<Slot, DecodeError>)
    ensures r.Success? ==> Fits(f, r.value)
    ensures r.Failure? ==> r.error == InvalidValue(f.Name())
    ensures r.Success? <==> match f.Kind()
      case MarketSymbol => v.JString?
      case Decimal => v.JString? && d.parseF64(v.text).Some?
      case EpochMillis | Unsigned => v.JInteger? && 0 <= v.n < U64_LIMIT
    ensures r.Success? ==> match f.Kind()
      case MarketSymbol => r.value == IdSlot(d.subscriptionId(ExchangeSub(Tickers, v.text)))
      case Decimal => r.value == DecimalSlot(d.parseF64(v.text).value)
      case EpochMillis => r.value == TimeSlot(DateTimeUtc(v.n))
      case Unsigned => r.value.n as int == v.n
  {
    match f.Kind()
    case MarketSymbol =>
      if v.JString? then Success(IdSlot(DeTikerSubscriptionId(d, v.text)))
      else Failure(InvalidValue(f.Name()))
    case Decimal =>
      if v.JString? && d.parseF64(v.text).Some? then Success(DecimalSlot(d.parseF64(v.text).value))
      else Failure(InvalidValue(f.Name()))
    case EpochMillis =>
      if v.JInteger? && 0 <= v.n < U64_LIMIT then Success(TimeSlot(DateTimeUtc(v.n)))
      else Failure(InvalidValue(f.Name()))
    case Unsigned =>
      if v.JInteger? && 0 <= v.n < U64_LIMIT then Success(CountSlot(v.n as uint64))
      else Failure(InvalidValue(f.Name()))
  }

  /** Every stored slot has its field's kind. */
  predicate SlotsFit(acc: map<Field, Slot>) {
    forall f | f in acc :: Fits(f, acc[f])
  }

  /** The derived map visitor: walks the payload's members in order, skips
      unknown keys, rejects a field seen twice (under its name, its alias, or
      both), and deserializes each value as it is reached. */
  function Visit(d: Decoders, entries: seq<Entry>, acc: map<Field, Slot>): (r: Result<map<Field, Slot>, DecodeError>)
    requires SlotsFit(acc)
    ensures r.Success? ==> SlotsFit(r.value) && acc.Keys <= r.value.Keys
    ensures r.Failure? ==> exists f: Field ::
      r.error == DuplicateField(f.Name()) || r.error == InvalidValue(f.Name())
    decreases |entries|
  {
    if |entries| == 0 then Success(acc)
    else
      match FieldOfKey(entries[0].key)
      case None => Visit(d, entries[1..], acc)
      case Some(f) =>
        if f in acc then Failure(DuplicateField(f.Name()))
        else
          var s :- DecodeValue(d, f, entries[0].value);
          Visit(d, entries[1..], acc[f := s])
  }

  /** The first field, in declaration order, that has no value yet. */
  function FirstMissing(acc: map<Field, Slot>, fields: seq<Field>): (r: Option<Field>)
    ensures r.None? <==> forall i | 0 <= i < |fields| :: fields[i] in acc
    ensures r.Some? ==> r.value in fields && r.value !in acc
  {
    if |fields| == 0 then None
    else if fields[0] !in acc then Some(fields[0])
    else FirstMissing(acc, fields[1..])
  }

  /** The field `FirstMissing` finds sits at an index before which every field
      has a value. */
  lemma {:induction false} FirstMissingIsFirst(acc: map<Field, Slot>, fields: seq<Field>)
    requires FirstMissing(acc, fields).Some?
    ensures exists k | 0 <= k < |fields| ::
      fields[k] == FirstMissing(acc, fields).value && forall j | 0 <= j < k :: fields[j] in acc
    decreases |fields|
  {
    if fields[0] in acc {
      var rest := fields[1..];
      FirstMissingIsFirst(acc, rest);
      var k :| 0 <= k < |rest| &&
        rest[k] == FirstMissing(acc, rest).value && forall j | 0 <= j < k :: rest[j] in acc;
      assert fields[k + 1] == rest[k];
      assert forall j | 0 <= j < k + 1 :: fields[j] in acc by {
        forall j | 0 <= j < k + 1 ensures fields[j] in acc {
          if j > 0 { assert fields[j] == rest[j - 1]; }
        }
      }
    } else {
      assert fields[0] == FirstMissing(acc, fields).value;
    }
  }

  /** Reads one field of a record, as a slot. */
  function SlotOf(t: BinanceTiker, f: Field): Slot {
    match f
    case SubscriptionIdField => IdSlot(t.subscription_id)
    case PriceChange => DecimalSlot(t.price_change)
    case PriceChangePercent => DecimalSlot(t.price_change_percent)
    case WeightedAvgPrice => DecimalSlot(t.weighted_avg_price)
    case LastPrice => DecimalSlot(t.last_price)
    case LastQty => DecimalSlot(t.last_qty)
    case OpenPrice => DecimalSlot(t.open_price)
    case HighPrice => DecimalSlot(t.high_price)
    case LowPrice => DecimalSlot(t.low_price)
    case Volume => DecimalSlot(t.volume)
    case QuoteVolume => DecimalSlot(t.quote_volume)
    case OpenTime => TimeSlot(t.open_time)
    case CloseTime => TimeSlot(t.close_time)
    case FirstId => CountSlot(t.first_id)
    case LastId => CountSlot(t.last_id)
    case Count => CountSlot(t.count)
  }

  lemma AllFieldsListsEveryField(f: Field)
    ensures f in AllFields
  {
  }

  /** When no field of `AllFields` is missing, none is. */
  lemma NoneMissingMeansComplete(acc: map<Field, Slot>)
    requires FirstMissing(acc, AllFields).None?
    ensures forall f: Field :: f in acc
  {
    forall f: Field ensures f in acc {
      AllFieldsListsEveryField(f);
    }
  }

  /** The record whose fields are the decoded slots. */
  function Build(acc: map<Field, Slot>): (t: BinanceTiker)
    requires SlotsFit(acc) && forall f: Field :: f in acc
    ensures forall f: Field :: SlotOf(t, f) == acc[f]
  {
    BinanceTiker(
      acc[SubscriptionIdField].id,
      acc[PriceChange].x, acc[PriceChangePercent].x, acc[WeightedAvgPrice].x,
      acc[LastPrice].x, acc[LastQty].x, acc[OpenPrice].x, acc[HighPrice].x,
      acc[LowPrice].x, acc[Volume].x, acc[QuoteVolume].x,
      acc[OpenTime].t, acc[CloseTime].t,
      acc[FirstId].n, acc[LastId].n, acc[Count].n)
  }

  /** Builds the record once every field has a value; otherwise reports the
      first missing field in declaration order. */
  function Assemble(acc: map<Field, Slot>): (r: Result<BinanceTiker, DecodeError>)
    requires SlotsFit(acc)
    ensures r.Success? <==> forall f: Field :: f in acc
    ensures r.Success? ==> forall f: Field :: SlotOf(r.value, f) == acc[f]
    ensures r.Failure? ==> exists f :: f !in acc && r.error == MissingField(f.Name())
  {
    match FirstMissing(acc, AllFields)
    case Some(f) => Failure(MissingField(f.Name()))
    case None =>
      NoneMissingMeansComplete(acc);
      Success(Build(acc))
  }

  /** The missing field `Assemble` reports is the first absent one in
      declaration order: every field declared before it has a value. */
  lemma AssembleReportsFirstMissing(acc: map<Field, Slot>)
    requires SlotsFit(acc)
    requires Assemble(acc).Failure?
    ensures exists k | 0 <= k < |AllFields| ::
      && AllFields[k] !in acc
      && Assemble(acc).error == MissingField(AllFields[k].Name())
      && forall j | 0 <= j < k :: AllFields[j] in acc
  {
    FirstMissingIsFirst(acc, AllFields);
  }

  /** Deserializes a JSON object into the wire record. */
  function Decode(d: Decoders, entries: seq<Entry>): (r: Result<BinanceTiker, DecodeError>)
    ensures r.Failure? ==> exists f: Field ::
      || r.error == MissingField(f.Name())
      || r.error == DuplicateField(f.Name())
      || r.error == InvalidValue(f.Name())
  {
    var acc :- Visit(d, entries, map[]);
    Assemble(acc)
  }

  /** The record's routing key. It is always present. */
  function Id(t: BinanceTiker): (r: Option<SubscriptionId>)
    ensures r.Some? && r.value == t.subscription_id
  {
    Some(t.subscription_id)
  }

  /** Rebuilds the wire record from its routing key and the canonical payload:
      the inverse of the conversion's field mapping. */
  function ToBinanceTiker(subscriptionId: SubscriptionId, k: Tiker): BinanceTiker {
    BinanceTiker(
      subscriptionId,
      k.price_change, k.price_change_percent, k.weighted_avg_price,
      k.last_price, k.last_qty, k.open, k.high, k.low,
      k.volume, k.quote_volume, k.open_time, k.close_time,
      k.first_id, k.last_id, k.count)
  }

  /** Normalises a wire record into exactly one successful market event.
      `exchangeOf` is the exchange-name conversion and `receivedTime` the
      clock reading taken at conversion time. */
  function FromBinanceTiker<I>(
    exchangeOf: ExchangeId -> Exchange,
    exchangeId: ExchangeId,
    instrument: I,
    tiker: BinanceTiker,
    receivedTime: DateTimeUtc
  ): (r: MarketIter<I, TikersEvent>)
    ensures |r.events| == 1 && r.events[0].Success?
    ensures r.events[0].value.exchange_time == tiker.close_time
    ensures r.events[0].value.exchange == exchangeOf(exchangeId)
    ensures r.events[0].value.instrument == instrument
    ensures ToBinanceTiker(tiker.subscription_id, r.events[0].value.kind) == tiker
    ensures r.events[0].value.kind.open == tiker.open_price
    ensures r.events[0].value.kind.high == tiker.high_price
    ensures r.events[0].value.kind.low == tiker.low_price
  {
    MarketIter([Success(MarketEvent(
      tiker.close_time,
      receivedTime,
      exchangeOf(exchangeId),
      instrument,
      Tiker(
        tiker.price_change,
        tiker.price_change_percent,
        tiker.weighted_avg_price,
        tiker.last_qty,
        tiker.open_price,
        tiker.high_price,
        tiker.low_price,
        tiker.last_price,
        tiker.volume,
        tiker.quote_volume,
        tiker.open_time,
        tiker.close_time,
        tiker.first_id,
        tiker.last_id,
        tiker.count)))])
  }
}

=== FILE: binance_futures_tiker_lemmas.dfy ===
/** Properties of the Binance futures ticker decoder, routing key and
    conversion. */
module BinanceFuturesTikerLemmas {
  import opened Wrappers
  import opened Primitives
  import opened Event
  import opened SubscriptionTiker
  import opened BinanceFuturesTiker

  /** How many members of a payload fill field `f`. */
  function Occurrences(entries: seq<Entry>, f: Field): nat
    decreases |entries|
  {
    if |entries| == 0 then 0
    else (if FieldOfKey(entries[0].key) == Some(f) then 1 else 0) + Occurrences(entries[1..], f)
  }

  /** Every member whose key names a field carries a value that field accepts. */
  predicate ValuesValid(d: Decoders, entries: seq<Entry>) {
    forall i | 0 <= i < |entries| && FieldOfKey(entries[i].key).Some? ::
      DecodeValue(d, FieldOfKey(entries[i].key).value, entries[i].value).Success?
  }

  /** The payload shape the record accepts: each of the sixteen fields filled
      exactly once (by its name or its alias), and every field value valid.
      Members with other keys are allowed and ignored. */
  predicate Conforms(d: Decoders, entries: seq<Entry>) {
    && (forall f: Field :: Occurrences(entries, f) == 1)
    && ValuesValid(d, entries)
  }

  /** No two fields share a Rust name. */
  lemma NameDeterminesField(f: Field, g: Field)
    ensures f.Name() == g.Name() ==> f == g
  {
  }

  /** No two fields share an alias: the comparison is case-sensitive, so
      "p" and "P", "q" and "Q", "o" and "O", "c" and "C", "l" and "L" belong
      to different fields. */
  lemma AliasDeterminesField(f: Field, g: Field)
    ensures f.Alias() == g.Alias() ==> f == g
  {
  }

  /** An alias is never a field name: aliases are one character long and
      names are longer. */
  lemma AliasIsNeverAName(f: Field, g: Field)
    ensures f.Alias() != g.Name()
  {
  }

  /** No key fills two fields: the 32 accepted keys are pairwise distinct. */
  lemma KeyFillsAtMostOneField(key: string, f: Field, g: Field)
    requires key == f.Name() || key == f.Alias()
    requires key == g.Name() || key == g.Alias()
    ensures f == g
  {
  }

  /** The table search finds some field whenever one of `fields` accepts the key. */
  lemma {:induction false} FindFieldComplete(key: string, fields: seq<Field>, f: Field)
    requires f in fields && (key == f.Name() || key == f.Alias())
    ensures FindField(key, fields).Some?
    decreases |fields|
  {
    if fields[0] != f && key != fields[0].Name() && key != fields[0].Alias() {
      FindFieldComplete(key, fields[1..], f);
    }
  }

  /** A key fills field `f` exactly when it is `f`'s name or `f`'s alias. */
  lemma FieldOfKeyMatchesTable(key: string, f: Field)
    ensures FieldOfKey(key) == Some(f) <==> key == f.Name() || key == f.Alias()
  {
    if key == f.Name() || key == f.Alias() {
      AllFieldsListsEveryField(f);
      FindFieldComplete(key, AllFields, f);
      KeyFillsAtMostOneField(key, f, FieldOfKey(key).value);
    }
  }

  /** Each field's name and its one-letter alias both fill that field. */
  lemma NameAndAliasFillTheirField(f: Field)
    ensures FieldOfKey(f.Name()) == Some(f) && FieldOfKey(f.Alias()) == Some(f)
  {
    FieldOfKeyMatchesTable(f.Name(), f);
    FieldOfKeyMatchesTable(f.Alias(), f);
  }

  lemma OccurrencesCons(entries: seq<Entry>)
    requires |entries| > 0
    ensures forall f: Field ::
      Occurrences(entries, f) == (if FieldOfKey(entries[0].key) == Some(f) then 1 else 0) + Occurrences(entries[1..], f)
  {
  }

  lemma ValuesValidCons(d: Decoders, entries: seq<Entry>)
    requires |entries| > 0
    ensures ValuesValid(d, entries) <==>
      && (FieldOfKey(entries[0].key).Some? ==>
            DecodeValue(d, FieldOfKey(entries[0].key).value, entries[0].value).Success?)
      && ValuesValid(d, entries[1..])
  {
  }


  /** `m` holds, for every member whose key names a field, the value decoded
      from that member. */
  predicate HoldsDecodedValues(d: Decoders, entries: seq<Entry>, m: map<Field, Slot>) {
    forall i | 0 <= i < |entries| && FieldOfKey(entries[i].key).Some? ::
      var f := FieldOfKey(entries[i].key).value;
      f in m && DecodeValue(d, f, entries[i].value) == Success(m[f])
  }

  /** The map visitor succeeds exactly when no field already held in `acc` is
      seen again, no field is seen twice, and every field value is valid. */
  lemma {:induction false} VisitSucceedsIff(d: Decoders, entries: seq<Entry>, acc: map<Field, Slot>)
    requires SlotsFit(acc)
    ensures Visit(d, entries, acc).Success? <==>
      && (forall f: Field :: Occurrences(entries, f) <= (if f in acc then 0 else 1))
      && ValuesValid(d, entries)
    decreases |entries|
  {
    if |entries| == 0 {
      assert forall f: Field :: Occurrences(entries, f) == 0;
    } else {
      var e := entries[0];
      var rest := entries[1..];
      OccurrencesCons(entries);
      ValuesValidCons(d, entries);
      match FieldOfKey(e.key)
      case None =>
        VisitSucceedsIff(d, rest, acc);
      case Some(f) =>
        if f in acc {
          assert Occurrences(entries, f) >= 1;
        } else if DecodeValue(d, f, e.value).Success? {
          VisitSucceedsIff(d, rest, acc[f := DecodeValue(d, f, e.value).value]);
        }
    }
  }

  /** A successful member walk holds exactly the fields of `acc` plus the
      fields seen, keeps the values of `acc`, and holds for each member the
      value decoded from it. */
  lemma {:induction false} VisitContents(d: Decoders, entries: seq<Entry>, acc: map<Field, Slot>)
    requires SlotsFit(acc)
    requires Visit(d, entries, acc).Success?
    ensures var m := Visit(d, entries, acc).value;
      && (forall f: Field :: f in m <==> f in acc || Occurrences(entries, f) > 0)
      && (forall f | f in acc :: m[f] == acc[f])
      && HoldsDecodedValues(d, entries, m)
    decreases |entries|
  {
    var m := Visit(d, entries, acc).value;
    if |entries| == 0 {
      assert forall f: Field :: Occurrences(entries, f) == 0;
    } else {
      var e := entries[0];
      var rest := entries[1..];
      OccurrencesCons(entries);
      match FieldOfKey(e.key)
      case None =>
        VisitContents(d, rest, acc);
        forall i | 0 <= i < |entries| && FieldOfKey(entries[i].key).Some?
          ensures var g := FieldOfKey(entries[i].key).value;
            g in m && DecodeValue(d, g, entries[i].value) == Success(m[g])
        {
          assert entries[i] == rest[i - 1];
        }
      case Some(f) =>
        var s := DecodeValue(d, f, e.value).value;
        VisitContents(d, rest, acc[f := s]);
        forall i | 0 <= i < |entries| && FieldOfKey(entries[i].key).Some?
          ensures var g := FieldOfKey(entries[i].key).value;
            g in m && DecodeValue(d, g, entries[i].value) == Success(m[g])
        {
          if i > 0 {
            assert entries[i] == rest[i - 1];
          }
        }
    }
  }

  /** Decoding succeeds exactly on conforming payloads: a missing field, a
      field given twice, or an invalid field value is always an error, and
      no partial record is ever produced. */
  lemma DecodeSucceedsIffConforms(d: Decoders, entries: seq<Entry>)
    ensures Decode(d, entries).Success? <==> Conforms(d, entries)
  {
    VisitSucceedsIff(d, entries, map[]);
    if Visit(d, entries, map[]).Success? {
      VisitContents(d, entries, map[]);
    }
    var v := Visit(d, entries, map[]);
    if v.Success? {
      var ok := Assemble(v.value);
      if ok.Success? {
        forall f: Field ensures Occurrences(entries, f) == 1 {
          assert f in v.value;
        }
      }
      if Conforms(d, entries) {
        assert forall f: Field :: f in v.value by {
          forall f: Field ensures f in v.value {
            assert Occurrences(entries, f) == 1;
          }
        }
      }
    }
  }

  /** Every field of a decoded record holds the value decoded from the payload
      member that filled it, whichever of its two keys that member used. */
  lemma DecodedFieldsMatchPayload(d: Decoders, t: BinanceTiker, entries: seq<Entry>, i: nat)
    requires Decode(d, entries) == Success(t)
    requires i < |entries| && FieldOfKey(entries[i].key).Some?
    ensures var f := FieldOfKey(entries[i].key).value;
      DecodeValue(d, f, entries[i].value) == Success(SlotOf(t, f))
  {
    VisitSucceedsIff(d, entries, map[]);
    VisitContents(d, entries, map[]);
    var m := Visit(d, entries, map[]).value;
    assert Decode(d, entries) == Assemble(m);
    var f := FieldOfKey(entries[i].key).value;
    assert DecodeValue(d, f, entries[i].value) == Success(m[f]);
  }

  /** A payload lacking both keys of some field is rejected. */
  lemma MissingFieldRejected(d: Decoders, entries: seq<Entry>, f: Field)
    requires forall i | 0 <= i < |entries| :: entries[i].key != f.Name() && entries[i].key != f.Alias()
    ensures Decode(d, entries).Failure?
  {
    DecodeSucceedsIffConforms(d, entries);
    NoKeyNoOccurrence(entries, f);
  }

  lemma {:induction false} NoKeyNoOccurrence(entries: seq<Entry>, f: Field)
    requires forall i | 0 <= i < |entries| :: entries[i].key != f.Name() && entries[i].key != f.Alias()
    ensures Occurrences(entries, f) == 0
    decreases |entries|
  {
    if |entries| > 0 {
      FieldOfKeyMatchesTable(entries[0].key, f);
      assert forall i | 0 <= i < |entries[1..]| :: entries[1..][i] == entries[i + 1];
      NoKeyNoOccurrence(entries[1..], f);
    }
  }

  lemma {:induction false} TwoMembersTwoOccurrences(entries: seq<Entry>, i: nat, j: nat, f: Field)
    requires i < j < |entries|
    requires FieldOfKey(entries[i].key) == Some(f) && FieldOfKey(entries[j].key) == Some(f)
    ensures Occurrences(entries, f) >= 2
    decreases |entries|
  {
    var rest := entries[1..];
    assert rest[j - 1] == entries[j];
    if i == 0 {
      OneMemberOneOccurrence(rest, j - 1, f);
    } else {
      assert rest[i - 1] == entries[i];
      TwoMembersTwoOccurrences(rest, i - 1, j - 1, f);
    }
  }

  lemma {:induction false} OneMemberOneOccurrence(entries: seq<Entry>, i: nat, f: Field)
    requires i < |entries| && FieldOfKey(entries[i].key) == Some(f)
    ensures Occurrences(entries, f) >= 1
    decreases |entries|
  {
    var here := if FieldOfKey(entries[0].key) == Some(f) then 1 else 0;
    assert Occurrences(entries, f) == here + Occurrences(entries[1..], f);
    if i > 0 {
      assert entries[1..][i - 1] == entries[i];
      OneMemberOneOccurrence(entries[1..], i - 1, f);
    }
  }

  /** A field given twice, under the same key or under its name and its
      alias ("p" and "price_change"), is rejected. */
  lemma DuplicateFieldRejected(d: Decoders, entries: seq<Entry>, i: nat, j: nat)
    requires i < j < |entries|
    requires FieldOfKey(entries[i].key).Some? && FieldOfKey(entries[i].key) == FieldOfKey(entries[j].key)
    ensures Decode(d, entries).Failure?
  {
    DecodeSucceedsIffConforms(d, entries);
    TwoMembersTwoOccurrences(entries, i, j, FieldOfKey(entries[i].key).value);
  }

  /** A member whose value its field does not accept (a non-string market, a
      string that does not parse as f64, a number outside the u64 range)
      makes the whole payload fail. */
  lemma InvalidValueRejected(d: Decoders, entries: seq<Entry>, i: nat)
    requires i < |entries| && FieldOfKey(entries[i].key).Some?
    requires DecodeValue(d, FieldOfKey(entries[i].key).value, entries[i].value).Failure?
    ensures Decode(d, entries).Failure?
  {
    DecodeSucceedsIffConforms(d, entries);
  }

  /** When the only defect of a payload is an absent field, the error names a
      field that has no member: the first such field in declaration order. */
  lemma MissingFieldReported(d: Decoders, entries: seq<Entry>)
    requires forall f: Field :: Occurrences(entries, f) <= 1
    requires ValuesValid(d, entries)
    requires Decode(d, entries).Failure?
    ensures exists f: Field ::
      Occurrences(entries, f) == 0 && Decode(d, entries).error == MissingField(f.Name())
    ensures exists k | 0 <= k < |AllFields| ::
      && Occurrences(entries, AllFields[k]) == 0
      && Decode(d, entries).error == MissingField(AllFields[k].Name())
      && forall j | 0 <= j < k :: Occurrences(entries, AllFields[j]) > 0
  {
    VisitSucceedsIff(d, entries, map[]);
    if Visit(d, entries, map[]).Success? {
      VisitContents(d, entries, map[]);
    }
    var m := Visit(d, entries, map[]).value;
    assert Decode(d, entries) == Assemble(m);
    var f :| f !in m && Decode(d, entries).error == MissingField(f.Name());
    assert Occurrences(entries, f) == 0;
    AssembleReportsFirstMissing(m);
    var k :| 0 <= k < |AllFields| && AllFields[k] !in m
      && Decode(d, entries).error == MissingField(AllFields[k].Name())
      && forall j | 0 <= j < k :: AllFields[j] in m;
    assert Occurrences(entries, AllFields[k]) == 0;
  }

  /** The members of a payload whose keys name a field. */
  function Known(entries: seq<Entry>): (r: seq<Entry>)
    ensures forall i | 0 <= i < |r| :: FieldOfKey(r[i].key).Some?
    decreases |entries|
  {
    if |entries| == 0 then []
    else if FieldOfKey(entries[0].key).None? then Known(entries[1..])
    else [entries[0]] + Known(entries[1..])
  }

  lemma {:induction false} VisitIgnoresUnknownKeys(d: Decoders, entries: seq<Entry>, acc: map<Field, Slot>)
    requires SlotsFit(acc)
    ensures Visit(d, Known(entries), acc) == Visit(d, entries, acc)
    decreases |entries|
  {
    if |entries| > 0 {
      var k := Known(entries[1..]);
      if FieldOfKey(entries[0].key).None? {
        VisitIgnoresUnknownKeys(d, entries[1..], acc);
      } else {
        var f := FieldOfKey(entries[0].key).value;
        assert ([entries[0]] + k)[1..] == k;
        if f !in acc && DecodeValue(d, f, entries[0].value).Success? {
          VisitIgnoresUnknownKeys(d, entries[1..], acc[f := DecodeValue(d, f, entries[0].value).value]);
        }
      }
    }
  }

  /** Members with keys outside the 32 accepted ones (Binance's "e", "E", or
      any other) do not change the outcome of decoding. */
  lemma DecodeIgnoresUnknownKeys(d: Decoders, entries: seq<Entry>)
    ensures Decode(d, Known(entries)) == Decode(d, entries)
  {
    VisitIgnoresUnknownKeys(d, entries, map[]);
  }

  /** The routing key of a decoded record is the tickers-channel subscription
      id of the market string in its "s" member, and `Id` always returns it. */
  lemma RoutingKeyIsTickersIdOfMarket(d: Decoders, t: BinanceTiker, entries: seq<Entry>, i: nat)
    requires Decode(d, entries) == Success(t)
    requires i < |entries| && (entries[i].key == "s" || entries[i].key == "subscription_id")
    ensures entries[i].value.JString?
    ensures Id(t) == Some(d.subscriptionId(ExchangeSub(Tickers, entries[i].value.text)))
  {
    NameAndAliasFillTheirField(SubscriptionIdField);
    assert FieldOfKey(entries[i].key) == Some(SubscriptionIdField) by {
      if entries[i].key == "s" {
        assert entries[i].key == SubscriptionIdField.Alias();
      } else {
        assert entries[i].key == SubscriptionIdField.Name();
      }
    }
    DecodedFieldsMatchPayload(d, t, entries, i);
    assert SlotOf(t, SubscriptionIdField) == IdSlot(t.subscription_id);
  }

  /** A price or quantity field of a decoded record is the f64 parsed from
      the string of the member that filled it: `"p": "10000.19"` sets
      `price_change` to whatever `parseF64("10000.19")` returns. */
  lemma DecimalDecoding(d: Decoders, t: BinanceTiker, entries: seq<Entry>, i: nat, f: Field)
    requires Decode(d, entries) == Success(t)
    requires i < |entries| && FieldOfKey(entries[i].key) == Some(f) && f.Kind() == Decimal
    ensures entries[i].value.JString? && d.parseF64(entries[i].value.text).Some?
    ensures SlotOf(t, f) == DecimalSlot(d.parseF64(entries[i].value.text).value)
  {
    DecodedFieldsMatchPayload(d, t, entries, i);
  }

  /** A trade id or count field of a decoded record is the integer of the
      member that filled it, without truncation. */
  lemma UnsignedDecoding(d: Decoders, t: BinanceTiker, entries: seq<Entry>, i: nat, f: Field)
    requires Decode(d, entries) == Success(t)
    requires i < |entries| && FieldOfKey(entries[i].key) == Some(f) && f.Kind() == Unsigned
    ensures entries[i].value.JInteger? && 0 <= entries[i].value.n < U64_LIMIT
    ensures SlotOf(t, f) == CountSlot(entries[i].value.n as uint64)
  {
    DecodedFieldsMatchPayload(d, t, entries, i);
  }

  /** Two payloads naming the same market, under `"s"` or
      `"subscription_id"`, yield the same routing key, however their other
      fields differ. */
  lemma SameMarketSameRoutingKey(
    d: Decoders, s: BinanceTiker, a: seq<Entry>, i: nat, t: BinanceTiker, b: seq<Entry>, j: nat)
    requires Decode(d, a) == Success(s) && Decode(d, b) == Success(t)
    requires i < |a| && FieldOfKey(a[i].key) == Some(SubscriptionIdField)
    requires j < |b| && FieldOfKey(b[j].key) == Some(SubscriptionIdField)
    requires a[i].value == b[j].value
    ensures Id(s) == Id(t)
  {
    FieldOfKeyMatchesTable(a[i].key, SubscriptionIdField);
    FieldOfKeyMatchesTable(b[j].key, SubscriptionIdField);
    RoutingKeyIsTickersIdOfMarket(d, s, a, i);
    RoutingKeyIsTickersIdOfMarket(d, t, b, j);
  }

  /** A timestamp field of a decoded record is the epoch-millisecond integer
      of the member that filled it. */
  lemma EpochMillisDecoding(d: Decoders, t: BinanceTiker, entries: seq<Entry>, i: nat, f: Field)
    requires Decode(d, entries) == Success(t)
    requires i < |entries| && FieldOfKey(entries[i].key) == Some(f) && f.Kind() == EpochMillis
    ensures entries[i].value.JInteger?
    ensures SlotOf(t, f) == TimeSlot(DateTimeUtc(entries[i].value.n))
  {
    DecodedFieldsMatchPayload(d, t, entries, i);
  }

  /** The decoded window close time is the epoch-millisecond integer of the
      payload's "C" member. */
  lemma CloseTimeFromPayload(d: Decoders, t: BinanceTiker, entries: seq<Entry>, i: nat)
    requires Decode(d, entries) == Success(t)
    requires i < |entries| && (entries[i].key == "C" || entries[i].key == "close_time")
    ensures entries[i].value.JInteger?
    ensures t.close_time == DateTimeUtc(entries[i].value.n)
  {
    NameAndAliasFillTheirField(CloseTime);
    assert FieldOfKey(entries[i].key) == Some(CloseTime) by {
      if entries[i].key == "C" {
        assert entries[i].key == CloseTime.Alias();
      } else {
        assert entries[i].key == CloseTime.Name();
      }
    }
    EpochMillisDecoding(d, t, entries, i, CloseTime);
    assert SlotOf(t, CloseTime) == TimeSlot(t.close_time);
  }

  /** Decoding then converting a payload gives exactly one successful event,
      stamped with the window close time from its "C" member, for the given
      instrument and exchange. */
  lemma DecodeThenConvert<I>(
    d: Decoders, exchangeOf: ExchangeId -> Exchange, exchangeId: ExchangeId,
    instrument: I, t: BinanceTiker, entries: seq<Entry>, i: nat, receivedTime: DateTimeUtc)
    requires Decode(d, entries) == Success(t)
    requires i < |entries| && (entries[i].key == "C" || entries[i].key == "close_time")
    ensures entries[i].value.JInteger?
    ensures var r := FromBinanceTiker(exchangeOf, exchangeId, instrument, t, receivedTime);
      && |r.events| == 1
      && r.events[0].Success?
      && r.events[0].value.exchange_time == DateTimeUtc(entries[i].value.n)
      && r.events[0].value.instrument == instrument
      && r.events[0].value.exchange == exchangeOf(exchangeId)
  {
    CloseTimeFromPayload(d, t, entries, i);
  }

  /** The conversion loses nothing but the routing key: two records with the
      same routing key that convert to the same payload are equal. */
  lemma ConversionIsInjective<I>(
    exchangeOf: ExchangeId -> Exchange, exchangeId: ExchangeId, instrument: I,
    a: BinanceTiker, b: BinanceTiker, receivedTime: DateTimeUtc)
    requires a.subscription_id == b.subscription_id
    requires FromBinanceTiker(exchangeOf, exchangeId, instrument, a, receivedTime).events[0].value.kind
      == FromBinanceTiker(exchangeOf, exchangeId, instrument, b, receivedTime).events[0].value.kind
    ensures a == b
  {
  }
}

=== FILE: event.dfy ===
/** The exchange-agnostic event envelope. */
module Event {
  import opened Wrappers
  import opened Primitives

  /** The crate's data error; the ticker conversion never produces one. */
  datatype DataError = DataError(reason: string)

  /** A normalised market event: exchange-reported time, local arrival time,
      exchange, instrument and the kind-specific payload. */
  datatype MarketEvent<I, T> = MarketEvent(
    exchange_time: DateTimeUtc,
    received_time: DateTimeUtc,
    exchange: Exchange,
    instrument: I,
    kind: T
  )

  /** The events one wire message converts into. */
  datatype MarketIter<I, T> = MarketIter(events: seq<Result<MarketEvent<I, T>, DataError>>)
}

=== FILE: primitives.dfy ===
/** Value types the ticker path borrows from its dependencies: floating-point
    numbers, UTC timestamps, 64-bit unsigned integers, subscription ids,
    exchange names and the JSON values a payload is made of. */
module Primitives {

  /** An IEEE-754 binary64 value, kept as its bit pattern. The ticker path only
      copies these, so no arithmetic is defined on them. */
  datatype F64 = F64(bits: bv64)

  const U64_LIMIT: int := 0x1_0000_0000_0000_0000

  /** Rust `u64`. */
  newtype uint64 = x: int | 0 <= x < U64_LIMIT

  /** A `DateTime<Utc>`, as milliseconds since the Unix epoch. */
  datatype DateTimeUtc = DateTimeUtc(epochMs: int)

  /** The routing key of a subscription (a string newtype in the source). */
  datatype SubscriptionId = SubscriptionId(text: string)

  /** Binance stream channels. Only the tickers channel is used by this path,
      and its literal text is kept abstract. */
  datatype BinanceChannel = Tickers

  /** The (channel, market) pair a subscription id is built from. */
  datatype ExchangeSub = ExchangeSub(channel: BinanceChannel, market: string)

  /** The crate's exchange identifier, known here only by its tag. */
  datatype ExchangeId = ExchangeId(tag: string)

  /** The exchange name carried by every market event. */
  datatype Exchange = Exchange(name: string)

  /** A JSON value as the deserializer sees it: a string (already unescaped),
      an integer number, or anything else (null, booleans, fractional numbers,
      arrays, objects), which no field of the ticker record accepts. */
  datatype JsonValue = JString(text: string) | JInteger(n: int) | JOther

  /** One `"key": value` member of a JSON object, in payload order. */
  datatype Entry = Entry(key: string, value: JsonValue)
}

=== FILE: subscription_tiker.dfy ===
/** The canonical ticker kind: the `Tikers` subscription marker and the
    normalised `Tiker` payload it yields. */
module SubscriptionTiker {
  import opened Primitives

  /** Zero-data marker selecting the ticker stream. Its event payload type is
      `TikersEvent`, that is `Tiker`. */
  datatype Tikers = Tikers {
    /** The kind's stable name. */
    function AsStr(): string {
      "tikers"
    }
  }

  /** Rolling-window statistics of one market. Previous close, best bid and
      best ask are not fields of this record. */
  datatype Tiker = Tiker(
    price_change: F64,
    price_change_percent: F64,
    weighted_avg_price: F64,
    last_qty: F64,
    open: F64,
    high: F64,
    low: F64,
    last_price: F64,
    volume: F64,
    quote_volume: F64,
    open_time: DateTimeUtc,
    close_time: DateTimeUtc,
    first_id: uint64,
    last_id: uint64,
    count: uint64
  )

  /** The event payload of the `Tikers` kind. */
  type TikersEvent = Tiker

  /** Every `Tikers` value has the same name, "tikers", and the marker has a
      single value. */
  lemma TikersIsUnitWithConstantName(a: Tikers, b: Tikers)
    ensures a == b
    ensures a.AsStr() == b.AsStr() == "tikers"
  {
  }
}

=== FILE: wrappers.dfy ===
/** Failure-compatible Option and Result types, used with `:-` for the
    decoder's early returns. */
module Wrappers {

  datatype Option<+T> = None | Some(value: T) {
    predicate IsFailure() {
      None?
    }

    function PropagateFailure<U>(): Option<U>
      requires None?
    {
      None
    }

    function Extract(): T
      requires Some?
    {
      value
    }
  }

  datatype Result<+R, +E> = Success(value: R) | Failure(error: E) {
    predicate IsFailure() {
      Failure?
    }

    function PropagateFailure<U>(): Result<U, E>
      requires Failure?
    {
      Failure(error)
    }

    function Extract(): R
      requires Success?
    {
      value
    }
  }
}
